=== FILE: README.md ===
# Pitch video labelling session — Dafny model

This project models the per-session labelling state machine of the pitch video app (`PitchApp` in `app.py`).

The app works through a shuffled queue of clip names. For each clip, the operator first plays it. They then pick a pitch type (keys `1`/`2`/`3`) and a result (keys `9`/`0`). They may also latch an early-timing flag (key `s`). Finally they submit. Submitting appends one record to the session log, marks the clip name as played, and moves the cursor to the next clip whose name has not been played. On close, the log is written out if it is non-empty.

The model has one immutable `State`:
- the queue;
- the cursor (`current_idx`);
- the played set (`played_videos`);
- the records (`session_results`);
- the pending pitch type and result (`None` stands for the empty string);
- the timing flag (`space_bar_pressed`);
- the mode (`app_state`: `None`/`PLAY`/`SUBMIT`);
- the action button: enabled or not, its caption, and its command.

Each callback is a pure transition. An effect value stands for what leaves the state: launching playback, or the "Incomplete" warning.

Modules:
- `Skip` holds the skip-forward walk. It has a recursive definition, the loop method, and a lemma saying the stopping point is unique.
- `Session` holds the state and the transitions.
- `SessionInvariant` holds the session invariant and the lemmas showing that every transition preserves it.
- `Run` covers whole runs from start-up.
- `Findings` holds `show_next_video` and `enable_selection` exactly as written, with the runs that show their three defects.
- `Scenario` is a three-row session in which one clip name appears twice.

In the corrected model (see ## Findings), the session invariant (`SessionInvariant.Inv`) says:
- every name before the cursor has been played, and no other name has;
- the played set is exactly the set of logged names, and each name is logged once, so the two have the same size;
- the app is idle exactly when the queue is exhausted; otherwise it shows a clip that has not been played;
- the button does what its caption says.

Because of the last two points (the app is idle exactly when the queue is exhausted, and an enabled button means the app is not idle), whenever `enter` or a button click reaches `on_submit` or `on_play_video`, the cursor is inside the queue. Those two handlers need that to look up the current row. This holds in every run of the corrected model, whatever events arrive and in whatever order. The app as written breaks it; ## Findings shows how.

## Model

| member | source | states |
|---|---|---|
| Skip.NextUnplayed | app.py:90-91 | The skip loop stops at the first position at or after the cursor whose name is unplayed, or at the end of the queue. Every position it passes holds a played name. It never moves the cursor back. |
| Skip.StopIsNextUnplayed | app.py:90-91 | Any position meeting that description is the one the loop reaches. So no unplayed clip is ever skipped. |
| Skip.SkipPlayed | app.py:90-91 | The imperative skip loop stops where `NextUnplayed` says, with the same guarantees. |
| Session.Resume | app.py:88-91 | Entering `show_next_video` clears the timing flag and runs the skip loop. Nothing else changes: the queue, played set, log, pending labels, mode and button are untouched. |
| Session.ShowNext | app.py:87-104 | Corrected `show_next_video`. On a clip that is not yet played, both labels are cleared, the flag is false, the mode is `PLAY`, and the button is an enabled play button. On an exhausted queue, the mode is idle and the button is disabled. The cursor only moves forward, past played names. |
| Session.Start | app.py:38-47 | Start-up has an empty played set and an empty log. A non-empty queue shows its first row in `PLAY` mode. An empty queue starts idle with the button disabled. |
| Session.OnPlayVideo | app.py:106-115 | Playing launches the current clip's file and disables the button, keeping its caption and command. Nothing else changes. It requires the cursor to be inside the queue. |
| Session.EnableSelection | app.py:117-119 | Corrected `enable_selection`. While a clip is shown, the playback callback switches to `SUBMIT` mode with an enabled submit button, and nothing else changes. Once the session has finished, the callback changes nothing. |
| Session.Commit | app.py:128-135 | A commit appends exactly one record: current name, pitch type, result and flag. It adds that name to the played set and moves the cursor one step. Nothing else changes. |
| Session.OnSubmit | app.py:121-136 | A submit is rejected with a warning, and no state change, exactly when either label is missing. Otherwise it appends exactly one record for the current clip, marks the clip played, and strictly advances the cursor, past played names only. It then resets for the next clip: the flag is cleared. On a new clip both labels are cleared, the mode is `PLAY` and the button is an enabled play button. At the end of the queue the app is idle with the button disabled. |
| Session.OnKey | app.py:50-68 | Each key's effect on a key-down event: `s` latches the flag, `9`/`0` set Strike/Ball, and `1`/`2`/`3` set Fastball/Offspeed/Breaking. `enter` plays in `PLAY` mode, submits in `SUBMIT` mode, and is ignored otherwise. Any other key, and any key release, changes nothing. No key other than `enter` changes the cursor, played set, log, mode or button, or clears the flag. Only `enter` in `PLAY` or `SUBMIT` mode needs the cursor inside the queue. |
| Session.OnClick | app.py:82-83 | A click runs the button's current command, and a disabled button does nothing. |
| Session.Handle | app.py:45-68 | Events are dispatched to the keyboard hook, the button, or the delayed playback callback (`enable_selection`). The cursor must be inside the queue only for `enter` in `PLAY` or `SUBMIT` mode and for a click on an enabled button. |
| Session.OnClose | app.py:138-147 | Closing writes a file exactly when the log is non-empty. The file holds the records in append order. |
| SessionInvariant.LabelledCount | app.py:128-134 | When each name is logged once, the set of logged names has as many elements as the log. |
| SessionInvariant.ShowNextEstablishesInv | app.py:87-104 | From a state whose played set equals the names before the cursor and the logged names, `show_next_video` restores the full session invariant. |
| SessionInvariant.StartEstablishesInv | app.py:38-47 | The invariant holds right after start-up. |
| SessionInvariant.CommitEntersShowNext | app.py:128-135 | A commit from an invariant state keeps the played set equal to both the queue prefix and the logged names, with no name logged twice. |
| SessionInvariant.OnSubmitPreservesInv | app.py:121-136 | Submitting, accepted or rejected, preserves the invariant. |
| SessionInvariant.OnKeyPreservesInv | app.py:50-68 | Every key event preserves the invariant. |
| SessionInvariant.OnClickPreservesInv | app.py:82-83 | A button click preserves the invariant. |
| SessionInvariant.HandlePreservesInv | app.py:45-68 | In an invariant state, every handler's precondition holds, including the row lookups in `on_submit` and `on_play_video`. Every event, including a playback callback at any time, preserves the invariant, never moves the cursor back, and only grows the played set and the log. |
| SessionInvariant.PlayedMatchesResults | app.py:19-22 | `len(played_videos) == len(session_results)`, and every logged name is in the played set. |
| SessionInvariant.TerminalIsFinal | app.py:93-96 | Once the queue is exhausted, no event changes the cursor, played set or log, launches anything or warns. The app stays idle with the button disabled, so a finished session accepts no further submissions. |
| SessionInvariant.CloseWritesPlayed | app.py:140-146 | A file is written exactly when some clip was played. It has one row per played clip, and its names are exactly the played set. |
| Run.RunKeepsInv | app.py:87-136 | Along any run of the corrected model from start-up: the invariant always holds, and the cursor, played set and log never shrink. A name played at any point is never the clip shown at a later point. |
| Run.RunExists | app.py:45-68 | Every sequence of events, from start-up, is a run: each handler's preconditions hold at every step, so `Run.RunKeepsInv` covers every sequence of events. |
| Findings.ShowNextAsWritten | app.py:87-104 | `show_next_video` as written. On an exhausted queue it keeps the mode, the pending labels and the button command, and only disables the button. On a new clip it sets the caption to play but keeps the previous command. |
| Findings.OnSubmitAsWritten | app.py:121-136 | `on_submit` as written. It warns, with no state change, exactly when a label is missing. Otherwise it appends the same record as `OnSubmit`, marks the clip played, and strictly advances the cursor past played names only. Past the end of the queue, the mode is left as it was. |
| Findings.ShowNextAgrees | app.py:87-104 | `show_next_video` as written and the corrected one agree on the queue, cursor, played set, log, pending labels and flag. They differ only in the mode and the button. |
| Findings.ExhaustedQueueStaysInSubmit | app.py:93-96 | After the only clip of a one-clip queue is submitted, the app is still in `SUBMIT` mode with the cursor at the end of the queue and both labels still set. The corrected model is idle there, and `enter` does nothing. |
| Findings.EnableSelectionAsWritten | app.py:117-119 | `enable_selection` as written. In any state, it switches to `SUBMIT` mode with an enabled submit button. |
| Findings.LateCallbackReopensFinishedSession | app.py:115-119 | In a one-clip session, playback is launched twice and the clip is submitted before the second callback arrives. The session is then idle at the end of the queue. The callback as written re-enables a submit button in `SUBMIT` mode with the cursor at the end, and the corrected one leaves the state unchanged. |
| Findings.StaleCallbackOpensSubmitOnNextClip | app.py:106-119 | In a two-clip session with a double launch, the stale second callback arrives after `a.mp4` was submitted. It puts `b.mp4` into `SUBMIT` mode at cursor 1, before `b.mp4` was launched. The app as written and the corrected model do the same here. |
| Findings.PlayButtonSubmitsOnNextClip | app.py:103 | After the first of two clips is submitted, the "Play Video" button still carries the submit command. A click with nothing selected warns instead of playing. After keys `2`, `0`, a click logs `b.mp4` as (Offspeed, Ball) without ever launching it. The corrected model launches the second clip. |
| Scenario.DuplicateNameSession | app.py:87-136 | Queue `a.mp4, b.mp4, a.mp4` labelled (Fastball, Strike) then (Offspeed, Ball) ends idle with exactly those two records, and the repeated row is never shown. Closing writes the two records. |

## Findings

| source | as written | input that shows it | evidently intended | confidence | as-written member | corrected member |
|---|---|---|---|---|---|---|
| app.py:93-96 | When the queue is exhausted, `show_next_video` disables the button and returns. `app_state` stays `SUBMIT` and the pending labels stay set. The global `enter` key therefore still dispatches to `on_submit`, which looks up row `len(timings)` at line 122. | Queue `["a.mp4"]`: `enter`, playback callback, `1`, `9`, `enter`, then `enter` again | The finished session accepts no further submissions, as the disabled button suggests. | high, not executed | Findings.ExhaustedQueueStaysInSubmit | Session.ShowNext |
| app.py:117-119 | `enable_selection` does not check that a clip is still shown. `on_play_video` only disables the button (line 110), and the `enter` branch checks only `app_state` (lines 65-66), so playback can be launched twice. When the second callback arrives after the last clip was submitted, it re-enables a submit button in `SUBMIT` mode with the cursor at `len(timings)`. | Queue `["a.mp4"]`: click "Play Video", `enter`, first callback, `1`, `9`, `enter`, then the second callback | A callback for a finished session is ignored. The correction covers only the finished session; see the note below the table. | low, not executed (the operator must label and submit between the two callbacks) | Findings.LateCallbackReopensFinishedSession | Session.EnableSelection |
| app.py:103 | `show_next_video` sets the button's caption back to "Play Video". The `command=self.on_submit` set at line 118 stays in place. | Queue `["a.mp4", "b.mp4"]`: label and submit the first clip, then click the button (a warning); or press `2`, `0` first, and the click logs `b.mp4` without playing it | From the second clip on, the "Play Video" button plays the clip, as it does on the first clip. | medium, not executed | Findings.PlayButtonSubmitsOnNextClip | Session.ShowNext |

`Session.ShowNext` sets the mode to idle when the queue is exhausted, and gives the button back its play command on each new clip. `Session.EnableSelection` ignores a callback once the session is idle. The rest of the model uses both. `SessionInvariant.HandlePreservesInv` and `Run.RunKeepsInv` prove that, with them, no handler ever looks up a row past the end of the queue, whatever events arrive. `Findings.LateCallbackReopensFinishedSession` runs on the corrected `show_next_video`, so the first correction alone does not close the lookup past the end. `SessionInvariant.TerminalIsFinal` proves, for every event, that the corrected finished session stays idle and accepts nothing.

The same stale callback also reaches a session that is still running. `Findings.StaleCallbackOpensSubmitOnNextClip` shows that, after a double launch on the first of two clips, the second callback opens submission for `b.mp4` before it has been played. The corrected model does the same. This is not a lookup past the end, and avoiding it would mean tying each callback to the launch that scheduled it, which the app does not do.

## Left out

- Loading the CSV and the random shuffle (app.py:10-16): the queue is an arbitrary `seq<string>` of names.
- The widget layout, the labels and the "Played N / 33" progress text (app.py:70-85, 94, 99-100): presentation only. The button keeps only its enabled flag, caption and command.
- `play_video`, `os.startfile` and the playback thread (app.py:25-31, 115): these are OS calls and fire-and-forget concurrency. Launching is an effect value, and its failure dialog is not modelled.
- The timing of the delayed callback `enable_selection` (app.py:113): it is an event that may arrive in any state, at any point of a run.
- Session.EnableSelection: ignores a stale callback only once the session has finished. A stale callback while a later clip is shown still opens submission for that clip, as in the app, because callbacks carry nothing that links them to the launch that scheduled them.
- `root.after` scheduling, `keyboard.hook` and `keyboard.unhook_all` (app.py:45, 55-68, 139): each callback is one immediate, sequential transition. The `s` key's direct write from the hook thread (app.py:53) is treated the same way.
- The `messagebox` dialogs (app.py:30, 125): the "Incomplete" warning is the `WarnIncomplete` effect with the state unchanged.
- The timestamped file name, the `logs` directory and CSV serialisation (app.py:141-146): `OnClose` returns the records to write, or nothing.
- Session.OnSubmit, Session.OnPlayVideo: a call with the cursor past the end is excluded by a precondition. In the app it raises at the row lookup (app.py:107, 122).
- Python's string labels ('Fastball', 'Strike', ...) are enumerations, and the empty string is `None`. Only the keys ever set them.

=== FILE: findings.dfy ===
/**
  `show_next_video` and `enable_selection` exactly as the app writes them,
  and the runs that show where they depart from what the rest of the app
  expects. The rest of the model uses the corrected `Session.ShowNext` and
  `Session.EnableSelection`.
 */
module Findings {
  import opened Skip
  import opened Session

  /** `show_next_video` as written: the exhausted-queue branch only disables
      the button, leaving `app_state` and the pending selection as they were,
      and a new clip relabels the button "Play Video" without giving it back
      its play command. */
  function ShowNextAsWritten(s: State): (t: State)
    ensures t.queue == s.queue && t.played == s.played && t.results == s.results
    ensures StopsAt(s.queue, s.played, s.cursor, t.cursor)
    ensures !t.spaceBar
    ensures t.cursor < |t.queue| ==>
      && t.pitchType == None && t.result == None
      && t.mode == Play
      && t.button == Button(true, PlayVideo, s.button.command)
    ensures t.cursor >= |t.queue| ==>
      && t.mode == s.mode
      && t.button == s.button.(enabled := false)
      && t.pitchType == s.pitchType && t.result == s.result
  {
    var t := Resume(s);
    if t.cursor >= |t.queue| then
      t.(button := t.button.(enabled := false))
    else
      t.(pitchType := None, result := None,
         button := t.button.(enabled := true, caption := PlayVideo), mode := Play)
  }

  /** `on_submit` as written, calling `show_next_video` as written. */
  function OnSubmitAsWritten(s: State): (r: Step)
    requires s.cursor < |s.queue|
    ensures r.effect == WarnIncomplete <==> s.pitchType == None || s.result == None
    ensures r.effect == WarnIncomplete ==> r.state == s
    ensures r.effect != WarnIncomplete ==>
      && r.state.results == s.results
         + [Record(s.queue[s.cursor], s.pitchType.value, s.result.value, s.spaceBar)]
      && r.state.played == s.played + {s.queue[s.cursor]}
      && r.effect == Quiet
      && r.state.queue == s.queue
      && StopsAt(s.queue, r.state.played, s.cursor + 1, r.state.cursor)
      && s.cursor < r.state.cursor <= |s.queue|
      && (r.state.cursor == |s.queue| ==> r.state.mode == s.mode)
  {
    if s.pitchType == None || s.result == None then
      Step(s, WarnIncomplete)
    else
      Step(ShowNextAsWritten(Commit(s)), Quiet)
  }

  /** The two versions of `show_next_video` differ only in the mode and the
      button: the cursor, the played set, the log, the pending labels and
      the flag come out the same, so everything proved about that
      bookkeeping for the corrected model holds of the app as written. */
  lemma ShowNextAgrees(s: State)
    ensures
      var t, u := ShowNextAsWritten(s), ShowNext(s);
      && t.queue == u.queue && t.cursor == u.cursor
      && t.played == u.played && t.results == u.results
      && t.pitchType == u.pitchType && t.result == u.result
      && t.spaceBar == u.spaceBar
  {
  }

  /** One clip played and labelled (Fastball, Strike), ready to submit:
      start, `enter`, playback callback, `1`, `9`. */
  function FirstClipLabelled(queue: seq<string>): State
    requires |queue| > 0
  {
    var s1 := OnKey(Start(queue), Down("enter")).state;
    var s2 := EnableSelection(s1);
    var s3 := OnKey(s2, Down("1")).state;
    OnKey(s3, Down("9")).state
  }

  /** Finding 1. With a one-clip queue, submitting the only clip leaves the
      app in `SUBMIT` mode with the cursor at the end of the queue, so a
      further `enter` is dispatched to `on_submit`, whose row lookup is past
      the end. The corrected `ShowNext` leaves the app idle instead, where
      `enter` does nothing. */
  lemma ExhaustedQueueStaysInSubmit()
    ensures ShowNextAsWritten(Fresh(["a.mp4"])) == Start(["a.mp4"])
    ensures
      var s := FirstClipLabelled(["a.mp4"]);
      && s.mode == Submit && s.pitchType == Some(Fastball) && s.result == Some(Strike)
      && var t := OnSubmitAsWritten(s).state;
      && t.results == [Record("a.mp4", Fastball, Strike, false)]
      && t.mode == Submit
      && t.cursor == |t.queue|
      && t.pitchType == Some(Fastball) && t.result == Some(Strike)
    ensures
      var t := OnSubmit(FirstClipLabelled(["a.mp4"])).state;
      && t.mode == Idle
      && OnKey(t, Down("enter")) == Step(t, Quiet)
  {
  }

  /** Finding 2. With two clips, after the first is submitted the button
      reads "Play Video" but still carries the submit command that
      `enable_selection` gave it, so clicking it on the second clip submits
      instead of playing: with nothing selected yet it warns, and with the
      labels already picked (keys `2`, `0`) it logs `b.mp4` without it ever
      being launched. The corrected `ShowNext` restores the play command. */
  lemma PlayButtonSubmitsOnNextClip()
    ensures
      var t := OnSubmitAsWritten(FirstClipLabelled(["a.mp4", "b.mp4"])).state;
      && t.mode == Play && t.cursor == 1
      && t.button == Button(true, PlayVideo, SubmitLabel)
      && OnClick(t).effect == WarnIncomplete
      && var u := OnKey(OnKey(t, Down("2")).state, Down("0")).state;
      && OnClick(u).effect == Quiet
      && OnClick(u).state.results == [Record("a.mp4", Fastball, Strike, false), Record("b.mp4", Offspeed, Ball, false)]
    ensures
      var t := OnSubmit(FirstClipLabelled(["a.mp4", "b.mp4"])).state;
      && OnClick(t).effect == Launch("b.mp4")
  {
  }

  /** `enable_selection` as written: whatever the state, the button becomes
      an enabled submit button and the mode becomes `SUBMIT`. */
  function EnableSelectionAsWritten(s: State): (t: State)
    ensures t.mode == Submit
    ensures t.button == Button(true, SubmitLabel, SubmitLabel)
    ensures t == s.(mode := Submit, button := t.button)
  {
    s.(button := Button(true, SubmitLabel, SubmitLabel), mode := Submit)
  }

  /** A one-clip session in which playback is launched twice (a click on
      "Play Video", then `enter`, which still sees `PLAY` mode), the first
      playback callback arrives, the clip is labelled (`1`, `9`) and
      submitted with `enter` before the second callback arrives. */
  function SessionAwaitingLateCallback(): State {
    var s0 := Start(["a.mp4"]);
    var s1 := Handle(s0, Click).state;
    var s2 := Handle(s1, Key(Down("enter"))).state;
    var s3 := Handle(s2, PlaybackDone).state;
    var s4 := Handle(s3, Key(Down("1"))).state;
    var s5 := Handle(s4, Key(Down("9"))).state;
    Handle(s5, Key(Down("enter"))).state
  }

  /** Finding 3. The two launches each schedule a callback. The session has
      finished before the second one arrives; the callback as written puts the
      app back into `SUBMIT` mode with an enabled submit button and the cursor
      at the end of the queue, so `enter` or a click reaches the row lookup of
      `on_submit` past the end. The corrected `EnableSelection` ignores it. */
  lemma LateCallbackReopensFinishedSession()
    ensures
      var s := SessionAwaitingLateCallback();
      && s.mode == Idle && s.cursor == |s.queue| == 1
      && s.results == [Record("a.mp4", Fastball, Strike, false)]
      && var t := EnableSelectionAsWritten(s);
      && t.mode == Submit && t.button.enabled && t.button.command == SubmitLabel
      && t.cursor == |t.queue|
    ensures
      var s := SessionAwaitingLateCallback();
      && EnableSelection(s) == s
  {
  }

  /** The same double launch in a two-clip session: the stale second
      callback arrives after `a.mp4` was submitted, while `b.mp4` is shown
      but not yet launched. The app as written and the corrected model both
      switch to `SUBMIT` mode for `b.mp4`: the idle guard only covers a
      finished session, and nothing ties a callback to the clip it was
      scheduled for. */
  lemma StaleCallbackOpensSubmitOnNextClip()
    ensures
      var s0 := Start(["a.mp4", "b.mp4"]);
      var s1 := Handle(s0, Click).state;
      var s2 := Handle(s1, Key(Down("enter"))).state;
      var s3 := Handle(s2, PlaybackDone).state;
      var s4 := Handle(s3, Key(Down("1"))).state;
      var s5 := Handle(s4, Key(Down("9"))).state;
      var s6 := Handle(s5, Key(Down("enter"))).state;
      && s6.cursor == 1 && s6.mode == Play
      && s6.results == [Record("a.mp4", Fastball, Strike, false)]
      && var t := EnableSelection(s6);
      && t.mode == Submit && t.button == Button(true, SubmitLabel, SubmitLabel)
      && t.cursor == 1
      && EnableSelectionAsWritten(s6) == t
  {
  }
}

=== FILE: invariant.dfy ===
/**
  The session invariant: what holds of the labelling state after start-up
  and after every transition, and the lemmas that it is preserved.
 */
module SessionInvariant {
  import opened Skip
  import opened Session

  /** The names at the first `n` positions of the queue. */
  function Seen(queue: seq<string>, n: nat): set<string>
    requires n <= |queue|
  {
    set k | 0 <= k < n :: queue[k]
  }

  /** The names the session log has records for. */
  function Labelled(results: seq<Record>): set<string> {
    set i | 0 <= i < |results| :: results[i].video
  }

  /** No clip is logged twice. */
  predicate DistinctVideos(results: seq<Record>) {
    forall i, j :: 0 <= i < j < |results| ==> results[i].video != results[j].video
  }

  /** The facts a running session keeps:
      - everything before the cursor has been played, and nothing else;
      - the played set is exactly the set of logged names, each logged once;
      - the app is idle exactly when the queue is exhausted, and otherwise
        shows a clip that has not been played;
      - the button says what it does, is off when idle, plays in `PLAY`
        mode and is an enabled submit button in `SUBMIT` mode. */
  predicate Inv(s: State) {
    && s.cursor <= |s.queue|
    && s.played == Seen(s.queue, s.cursor)
    && s.played == Labelled(s.results)
    && DistinctVideos(s.results)
    && (s.cursor < |s.queue| <==> s.mode != Idle)
    && (s.cursor < |s.queue| ==> s.queue[s.cursor] !in s.played)
    && s.button.caption == s.button.command
    && (s.button.enabled ==> s.mode != Idle)
    && (s.mode == Play ==> s.button.command == PlayVideo)
    && (s.mode == Submit ==> s.button.command == SubmitLabel && s.button.enabled)
  }

  /** The part of `Inv` that holds when `show_next_video` is entered. */
  predicate Entering(s: State) {
    && s.cursor <= |s.queue|
    && s.played == Seen(s.queue, s.cursor)
    && s.played == Labelled(s.results)
    && DistinctVideos(s.results)
    && s.button.caption == s.button.command
  }

  lemma SeenStep(queue: seq<string>, n: nat)
    requires n < |queue|
    ensures Seen(queue, n + 1) == Seen(queue, n) + {queue[n]}
  {
  }

  lemma LabelledAppend(results: seq<Record>, r: Record)
    ensures Labelled(results + [r]) == Labelled(results) + {r.video}
  {
    var rs := results + [r];
    forall x | x in Labelled(rs)
      ensures x in Labelled(results) + {r.video}
    {
      var i :| 0 <= i < |rs| && rs[i].video == x;
      if i < |results| {
        assert rs[i] == results[i];
      }
    }
    forall x | x in Labelled(results)
      ensures x in Labelled(rs)
    {
      var i :| 0 <= i < |results| && results[i].video == x;
      assert rs[i] == results[i];
    }
    assert rs[|results|] == r;
  }

  /** With every name logged once, there are as many played names as records. */
  lemma {:induction false} LabelledCount(results: seq<Record>)
    requires DistinctVideos(results)
    ensures |Labelled(results)| == |results|
  {
    if results == [] {
      assert Labelled(results) == {};
    } else {
      var init := results[..|results| - 1];
      var last := results[|results| - 1];
      assert results == init + [last];
      LabelledCount(init);
      LabelledAppend(init, last);
      assert last.video !in Labelled(init);
    }
  }

  /** `show_next_video` restores the whole invariant. */
  lemma ShowNextEstablishesInv(s: State)
    requires Entering(s)
    ensures Inv(ShowNext(s))
  {
  }

  lemma StartEstablishesInv(queue: seq<string>)
    ensures Inv(Start(queue))
  {
  }

  /** A successful commit keeps every name logged once and the played set
      equal to the queue prefix, ready for `show_next_video`. */
  lemma CommitEntersShowNext(s: State)
    requires Inv(s)
    requires s.cursor < |s.queue|
    requires s.pitchType.Some? && s.result.Some?
    ensures Entering(Commit(s))
  {
    var t := Commit(s);
    var rec := Record(s.queue[s.cursor], s.pitchType.value, s.result.value, s.spaceBar);
    SeenStep(s.queue, s.cursor);
    LabelledAppend(s.results, rec);
    forall i, j | 0 <= i < j < |t.results|
      ensures t.results[i].video != t.results[j].video
    {
      if j == |s.results| {
        assert t.results[i] == s.results[i];
        assert s.results[i].video in Labelled(s.results);
      } else {
        assert t.results[i] == s.results[i] && t.results[j] == s.results[j];
      }
    }
  }

  lemma OnSubmitPreservesInv(s: State)
    requires Inv(s)
    requires s.cursor < |s.queue|
    ensures Inv(OnSubmit(s).state)
  {
    if s.pitchType.Some? && s.result.Some? {
      CommitEntersShowNext(s);
      ShowNextEstablishesInv(Commit(s));
    }
  }

  lemma OnKeyPreservesInv(s: State, e: KeyEvent)
    requires Inv(s)
    ensures Inv(OnKey(s, e).state)
  {
    if e.down && e.name == "enter" && s.mode == Submit {
      OnSubmitPreservesInv(s);
    }
  }

  lemma OnClickPreservesInv(s: State)
    requires Inv(s)
    ensures Inv(OnClick(s).state)
  {
    if s.button.enabled && s.button.command == SubmitLabel {
      OnSubmitPreservesInv(s);
    }
  }

  /** Every event keeps the invariant; in particular an `Inv` state always
      meets the handlers' preconditions, so neither `enter` nor a click ever
      reaches `on_submit` or `on_play_video` past the end of the queue. */
  lemma HandlePreservesInv(s: State, ev: Event)
    requires Inv(s)
    ensures Ready(s, ev)
    ensures Inv(Handle(s, ev).state)
    ensures s.cursor <= Handle(s, ev).state.cursor
    ensures s.played <= Handle(s, ev).state.played
    ensures s.results <= Handle(s, ev).state.results
  {
    match ev
    case Key(e) => OnKeyPreservesInv(s, e);
    case Click => OnClickPreservesInv(s);
    case PlaybackDone =>
  }

  /** A finished session is final: whatever event arrives, it stays idle
      with the button disabled, logs nothing and launches nothing. */
  lemma TerminalIsFinal(s: State, ev: Event)
    requires Inv(s) && s.cursor == |s.queue|
    ensures Ready(s, ev)
    ensures SameSession(s, Handle(s, ev).state)
    ensures Handle(s, ev).effect == Quiet
    ensures Handle(s, ev).state.mode == Idle && !Handle(s, ev).state.button.enabled
  {
  }

  /** The played set and the session log always have the same size. */
  lemma PlayedMatchesResults(s: State)
    requires Inv(s)
    ensures |s.played| == |s.results|
    ensures forall i :: 0 <= i < |s.results| ==> s.results[i].video in s.played
  {
    LabelledCount(s.results);
  }

  /** The file written on close holds one row per played clip, in the order
      they were submitted, and is written exactly when something was played. */
  lemma CloseWritesPlayed(s: State)
    requires Inv(s)
    ensures OnClose(s).Some? <==> s.played != {}
    ensures OnClose(s).Some? ==>
      && |OnClose(s).value| == |s.played|
      && Labelled(OnClose(s).value) == s.played
  {
    LabelledCount(s.results);
    if s.results != [] {
      assert s.results[0].video in s.played;
    }
  }
}

=== FILE: run.dfy ===
/** Whole runs of the app: the states it passes through from start-up under
    a sequence of events. */
module Run {
  import opened Session
  import opened SessionInvariant

  /** `states` is a run of the app on `queue`: it begins with start-up and
      each next state is the previous one after an event. */
  predicate IsRun(queue: seq<string>, states: seq<State>, events: seq<Event>) {
    && |states| == |events| + 1
    && states[0] == Start(queue)
    && forall i :: 0 <= i < |events| ==>
         && Ready(states[i], events[i])
         && states[i + 1] == Handle(states[i], events[i]).state
  }

  /** Along a run the invariant holds throughout, the cursor never moves
      back, the played set and the log only grow, and a name played at any
      point is never the clip shown at any later point. */
  lemma {:induction false} RunKeepsInv(queue: seq<string>, states: seq<State>, events: seq<Event>)
    requires IsRun(queue, states, events)
    ensures forall i :: 0 <= i < |states| ==> Inv(states[i])
    ensures forall i, j :: 0 <= i <= j < |states| ==>
      && states[i].cursor <= states[j].cursor
      && states[i].played <= states[j].played
      && states[i].results <= states[j].results
    ensures forall i, j :: 0 <= i <= j < |states| && states[j].cursor < |states[j].queue| ==>
      states[j].queue[states[j].cursor] !in states[i].played
  {
    if events == [] {
      StartEstablishesInv(queue);
    } else {
      var n := |events| - 1;
      assert IsRun(queue, states[..n + 1], events[..n]);
      RunKeepsInv(queue, states[..n + 1], events[..n]);
      assert Inv(states[n]);
      HandlePreservesInv(states[n], events[n]);
      assert states[n + 1] == Handle(states[n], events[n]).state;
      forall i, j | 0 <= i <= j < |states|
        ensures states[i].cursor <= states[j].cursor
        ensures states[i].played <= states[j].played
        ensures states[i].results <= states[j].results
      {
        if j == n + 1 && i <= n {
          assert states[..n + 1][i] == states[i] && states[..n + 1][n] == states[n];
        } else if j <= n {
          assert states[..n + 1][i] == states[i] && states[..n + 1][j] == states[j];
        }
      }
      forall i | 0 <= i < |states|
        ensures Inv(states[i])
      {
        if i <= n {
          assert states[..n + 1][i] == states[i];
        }
      }
      forall i, j | 0 <= i <= j < |states| && states[j].cursor < |states[j].queue|
        ensures states[j].queue[states[j].cursor] !in states[i].played
      {
        assert Inv(states[j]);
        assert states[i].played <= states[j].played;
      }
    }
  }

  /** Every sequence of events gives a run: from start-up, each handler's
      preconditions always hold, so `RunKeepsInv` covers every sequence. */
  lemma {:induction false} RunExists(queue: seq<string>, events: seq<Event>)
    ensures exists states :: IsRun(queue, states, events) && Inv(states[|events|])
  {
    if events == [] {
      StartEstablishesInv(queue);
      assert IsRun(queue, [Start(queue)], events);
    } else {
      var n := |events| - 1;
      RunExists(queue, events[..n]);
      var states :| IsRun(queue, states, events[..n]) && Inv(states[n]);
      HandlePreservesInv(states[n], events[n]);
      var states' := states + [Handle(states[n], events[n]).state];
      assert IsRun(queue, states', events);
    }
  }
}

=== FILE: scenario.dfy ===
/**
  An end-to-end session over a queue that names one clip twice: the
  repeated row is skipped for good once its name has been labelled.
 */
module Scenario {
  import opened Session

  /** Play the current clip, let the playback callback fire, pick a pitch
      type and a result with their keys, then submit with `enter`. */
  function LabelCurrent(s: State, typeKey: string, resultKey: string): (r: Step)
    requires s.mode == Play && s.cursor < |s.queue|
  {
    var s1 := OnKey(s, Down("enter")).state;
    var s2 := EnableSelection(s1);
    var s3 := OnKey(s2, Down(typeKey)).state;
    var s4 := OnKey(s3, Down(resultKey)).state;
    OnKey(s4, Down("enter"))
  }

  /** Queue `a.mp4, b.mp4, a.mp4`: label `a.mp4` (Fastball, Strike), then
      `b.mp4` (Offspeed, Ball); the second `a.mp4` row is never shown, the
      session ends idle with exactly two records, and closing writes them. */
  lemma DuplicateNameSession()
    ensures
      var s0 := Start(["a.mp4", "b.mp4", "a.mp4"]);
      && s0.cursor == 0 && s0.mode == Play
      && var s1 := LabelCurrent(s0, "1", "9").state;
      && s1.played == {"a.mp4"} && s1.cursor == 1 && s1.mode == Play
      && var s2 := LabelCurrent(s1, "2", "0").state;
      && s2.mode == Idle
      && s2.cursor == 3
      && s2.results == [Record("a.mp4", Fastball, Strike, false), Record("b.mp4", Offspeed, Ball, false)]
      && OnClose(s2) == Some(s2.results)
  {
  }
}

=== FILE: session.dfy ===
/**
  The per-session labelling state machine of the pitch video app: a fixed,
  already-shuffled queue of clip names, a cursor into it, the set of names
  labelled so far, the append-only list of labelled results, the operator's
  pending selection, the early-timing flag, the play/submit mode and the one
  action button. Every callback the app schedules is modelled as an
  immediate, sequential transition on an immutable `State`.
 */
module Session {
  import opened Skip

  datatype Option<T> = None | Some(value: T)

  /** The three pitch-type labels (keys 1, 2, 3). */
  datatype PitchType = Fastball | Offspeed | Breaking

  /** The two result labels (keys 9, 0). */
  datatype PitchResult = Strike | Ball

  /** `app_state`: `None` before the first clip (and, once the queue is
      exhausted, in the corrected model), `PLAY` or `SUBMIT`. */
  datatype Mode = Idle | Play | Submit

  /** What the action button says, and what it does when clicked. */
  datatype Action = PlayVideo | SubmitLabel

  datatype Button = Button(enabled: bool, caption: Action, command: Action)

  /** One row of the session log. */
  datatype Record = Record(video: string, pitchType: PitchType, result: PitchResult, spaceBar: bool)

  datatype State = State(
    queue: seq<string>,              // the shuffled `new_name` column
    cursor: nat,                     // `current_idx`
    played: set<string>,             // `played_videos`
    results: seq<Record>,            // `session_results`
    pitchType: Option<PitchType>,    // `pitch_type_var`, `None` for ''
    result: Option<PitchResult>,     // `result_var`, `None` for ''
    spaceBar: bool,                  // `space_bar_pressed`
    mode: Mode,                      // `app_state`
    button: Button                   // `next_button`
  )

  /** What a transition asks of the world outside the state. */
  datatype Effect =
    | Quiet
    | Launch(path: string)   // start the playback thread on this file
    | WarnIncomplete         // the "Incomplete" warning dialog

  datatype Step = Step(state: State, effect: Effect)

  datatype KeyEvent = KeyEvent(down: bool, name: string)

  /** A key going down. */
  function Down(name: string): KeyEvent {
    KeyEvent(true, name)
  }

  /** The events the app reacts to once it is running. */
  datatype Event =
    | Key(key: KeyEvent)     // the global keyboard hook
    | Click                  // the action button
    | PlaybackDone           // the delayed callback after playback was launched

  /** The fields a session accumulates across clips. */
  predicate SameSession(s: State, t: State) {
    t.queue == s.queue && t.cursor == s.cursor && t.played == s.played && t.results == s.results
  }

  /** The state right after the widgets are built, before the first clip. */
  function Fresh(queue: seq<string>): State {
    State(queue, 0, {}, [], None, None, false, Idle, Button(true, PlayVideo, PlayVideo))
  }

  /** The flag reset and the skip loop that open `show_next_video`. */
  function Resume(s: State): (t: State)
    ensures t.queue == s.queue && t.played == s.played && t.results == s.results
    ensures StopsAt(s.queue, s.played, s.cursor, t.cursor)
    ensures !t.spaceBar
    ensures t == s.(spaceBar := false, cursor := t.cursor)
  {
    s.(spaceBar := false, cursor := NextUnplayed(s.queue, s.played, s.cursor))
  }

  /** `show_next_video`, with the two corrections listed under Findings:
      an exhausted queue leaves the app idle, and a new clip puts the button
      back to playing. */
  function ShowNext(s: State): (t: State)
    ensures t.queue == s.queue && t.played == s.played && t.results == s.results
    ensures StopsAt(s.queue, s.played, s.cursor, t.cursor)
    ensures s.cursor <= |s.queue| ==> t.cursor <= |t.queue|
    ensures !t.spaceBar
    ensures t.cursor < |t.queue| ==>
      && t.queue[t.cursor] !in t.played
      && t.pitchType == None && t.result == None
      && t.mode == Play
      && t.button == Button(true, PlayVideo, PlayVideo)
    ensures t.cursor >= |t.queue| ==>
      && t.mode == Idle
      && !t.button.enabled
      && t.pitchType == s.pitchType && t.result == s.result
  {
    var t := Resume(s);
    if t.cursor >= |t.queue| then
      t.(mode := Idle, button := t.button.(enabled := false))
    else
      t.(pitchType := None, result := None,
         button := Button(true, PlayVideo, PlayVideo), mode := Play)
  }

  /** `PitchApp.__init__`: build the widgets, then show the first clip. */
  function Start(queue: seq<string>): (s: State)
    ensures s.queue == queue && s.played == {} && s.results == []
    ensures |queue| > 0 ==> s.cursor == 0 && s.mode == Play
    ensures |queue| == 0 ==> s.mode == Idle && !s.button.enabled
    ensures !s.spaceBar && s.pitchType == None && s.result == None
  {
    ShowNext(Fresh(queue))
  }

  /** `on_play_video`: launch playback of the current clip and disable the
      button until the playback callback re-enables it. The lookup of the
      current row fails when the cursor is past the end. */
  function OnPlayVideo(s: State): (r: Step)
    requires s.cursor < |s.queue|
    ensures r.effect == Launch(s.queue[s.cursor])
    ensures SameSession(s, r.state)
    ensures r.state.mode == s.mode
    ensures r.state.button == s.button.(enabled := false)
    ensures r.state == s.(button := r.state.button)
  {
    Step(s.(button := s.button.(enabled := false)), Launch(s.queue[s.cursor]))
  }

  /** `enable_selection`, with the correction listed under Findings: the
      button turns into "Submit" and the mode becomes `SUBMIT`, unless the
      session has already finished, in which case a late callback is
      ignored. */
  function EnableSelection(s: State): (t: State)
    ensures s.mode == Idle ==> t == s
    ensures s.mode != Idle ==>
      && t.mode == Submit
      && t.button == Button(true, SubmitLabel, SubmitLabel)
      && t == s.(mode := Submit, button := t.button)
  {
    if s.mode == Idle then s
    else s.(button := Button(true, SubmitLabel, SubmitLabel), mode := Submit)
  }

  /** The commit half of `on_submit`: log the current clip with the pending
      labels, mark its name played and step past it. */
  function Commit(s: State): (t: State)
    requires s.cursor < |s.queue|
    requires s.pitchType.Some? && s.result.Some?
    ensures t.results == s.results
      + [Record(s.queue[s.cursor], s.pitchType.value, s.result.value, s.spaceBar)]
    ensures t.played == s.played + {s.queue[s.cursor]}
    ensures t.cursor == s.cursor + 1
    ensures t == s.(results := t.results, played := t.played, cursor := t.cursor)
  {
    var name := s.queue[s.cursor];
    s.(results := s.results + [Record(name, s.pitchType.value, s.result.value, s.spaceBar)],
       played := s.played + {name},
       cursor := s.cursor + 1)
  }

  /** `on_submit`: refuse with a warning and no change unless both labels
      are chosen; otherwise commit and move to the next clip. */
  function OnSubmit(s: State): (r: Step)
    requires s.cursor < |s.queue|
    ensures r.effect == WarnIncomplete <==> s.pitchType == None || s.result == None
    ensures r.effect == WarnIncomplete ==> r.state == s
    ensures r.effect != WarnIncomplete ==>
      && r.effect == Quiet
      && r.state.queue == s.queue
      && r.state.results == s.results
         + [Record(s.queue[s.cursor], s.pitchType.value, s.result.value, s.spaceBar)]
      && r.state.played == s.played + {s.queue[s.cursor]}
      && StopsAt(s.queue, r.state.played, s.cursor + 1, r.state.cursor)
      && s.cursor < r.state.cursor <= |s.queue|
      && !r.state.spaceBar
      && (r.state.cursor < |s.queue| ==>
            && r.state.pitchType == None && r.state.result == None
            && r.state.mode == Play
            && r.state.button == Button(true, PlayVideo, PlayVideo))
      && (r.state.cursor == |s.queue| ==> r.state.mode == Idle && !r.state.button.enabled)
  {
    if s.pitchType == None || s.result == None then
      Step(s, WarnIncomplete)
    else
      Step(ShowNext(Commit(s)), Quiet)
  }

  /** `on_key_press`. Only key-down events do anything; `s` latches the
      timing flag; 9/0 pick the result; 1/2/3 pick the pitch type; `enter`
      plays in `PLAY` mode, submits in `SUBMIT` mode, and is ignored
      otherwise. */
  function OnKey(s: State, e: KeyEvent): (r: Step)
    requires e.down && e.name == "enter" && s.mode != Idle ==> s.cursor < |s.queue|
    ensures !e.down ==> r == Step(s, Quiet)
    ensures e.down && e.name == "s" ==> r == Step(s.(spaceBar := true), Quiet)
    ensures e.down && e.name == "9" ==> r == Step(s.(result := Some(Strike)), Quiet)
    ensures e.down && e.name == "0" ==> r == Step(s.(result := Some(Ball)), Quiet)
    ensures e.down && e.name == "1" ==> r == Step(s.(pitchType := Some(Fastball)), Quiet)
    ensures e.down && e.name == "2" ==> r == Step(s.(pitchType := Some(Offspeed)), Quiet)
    ensures e.down && e.name == "3" ==> r == Step(s.(pitchType := Some(Breaking)), Quiet)
    ensures e.down && e.name !in {"s", "9", "0", "1", "2", "3", "enter"} ==> r == Step(s, Quiet)
    ensures e.name != "enter" ==>
      && SameSession(s, r.state) && r.state.mode == s.mode && r.state.button == s.button
      && r.effect == Quiet
      && (s.spaceBar ==> r.state.spaceBar)
    ensures e.down && e.name == "enter" ==>
      && (s.mode == Play ==> r == OnPlayVideo(s))
      && (s.mode == Submit ==> r == OnSubmit(s))
      && (s.mode == Idle ==> r == Step(s, Quiet))
  {
    if !e.down then Step(s, Quiet)
    else
      var s' := if e.name == "s" then s.(spaceBar := true) else s;
      if e.name == "9" then Step(s'.(result := Some(Strike)), Quiet)
      else if e.name == "0" then Step(s'.(result := Some(Ball)), Quiet)
      else if e.name == "1" then Step(s'.(pitchType := Some(Fastball)), Quiet)
      else if e.name == "2" then Step(s'.(pitchType := Some(Offspeed)), Quiet)
      else if e.name == "3" then Step(s'.(pitchType := Some(Breaking)), Quiet)
      else if e.name == "enter" then
        match s'.mode
        case Play => OnPlayVideo(s')
        case Submit => OnSubmit(s')
        case Idle => Step(s', Quiet)
      else Step(s', Quiet)
  }

  /** A click on the action button runs whatever command it currently
      carries; a disabled button does nothing. */
  function OnClick(s: State): (r: Step)
    requires s.button.enabled ==> s.cursor < |s.queue|
    ensures !s.button.enabled ==> r == Step(s, Quiet)
    ensures s.button.enabled && s.button.command == PlayVideo ==> r == OnPlayVideo(s)
    ensures s.button.enabled && s.button.command == SubmitLabel ==> r == OnSubmit(s)
  {
    if !s.button.enabled then Step(s, Quiet)
    else match s.button.command
      case PlayVideo => OnPlayVideo(s)
      case SubmitLabel => OnSubmit(s)
  }

  /** What a handler needs of the state: the row lookup of `enter` in
      `PLAY` or `SUBMIT` mode, and of a click on an enabled button, must
      fall inside the queue. */
  predicate Ready(s: State, ev: Event) {
    match ev
    case Key(e) => e.down && e.name == "enter" && s.mode != Idle ==> s.cursor < |s.queue|
    case Click => s.button.enabled ==> s.cursor < |s.queue|
    case PlaybackDone => true
  }

  /** Dispatch of one event to its handler. */
  function Handle(s: State, ev: Event): (r: Step)
    requires Ready(s, ev)
    ensures ev.Key? ==> r == OnKey(s, ev.key)
    ensures ev.Click? ==> r == OnClick(s)
    ensures ev.PlaybackDone? ==> r == Step(EnableSelection(s), Quiet)
  {
    match ev
    case Key(e) => OnKey(s, e)
    case Click => OnClick(s)
    case PlaybackDone => Step(EnableSelection(s), Quiet)
  }

  /** `on_close`: the records to write, in append order, or `None` when
      there is nothing to write and no file is created. */
  function OnClose(s: State): (written: Option<seq<Record>>)
    ensures written.Some? <==> |s.results| > 0
    ensures written.Some? ==> written.value == s.results
  {
    if |s.results| > 0 then Some(s.results) else None
  }
}

=== FILE: skip.dfy ===
/**
  The skip-forward walk over the labelling queue: starting from a cursor,
  move past every clip whose name has already been labelled in this session,
  and stop at the first unlabelled clip or at the end of the queue.
 */
module Skip {

  /** `j` is where the walk that starts at `i` stops: every position passed
      over holds an already-played name, and `j` is either past the end of
      the queue or holds a name that has not been played. */
  predicate StopsAt(queue: seq<string>, played: set<string>, i: nat, j: nat) {
    && i <= j
    && (i < j ==> j <= |queue|)
    && (forall k :: i <= k < j ==> queue[k] in played)
    && (j < |queue| ==> queue[j] !in played)
  }

  /** The position the skip loop leaves the cursor at, starting from `i`. */
  function NextUnplayed(queue: seq<string>, played: set<string>, i: nat): (j: nat)
    ensures StopsAt(queue, played, i, j)
    ensures i <= |queue| ==> j <= |queue|
    decreases |queue| - i
  {
    if i >= |queue| || queue[i] !in played then i
    else NextUnplayed(queue, played, i + 1)
  }

  /** The stopping point is unique: any position satisfying `StopsAt` is the
      one `NextUnplayed` computes, so no unplayed clip can be jumped over. */
  lemma StopIsNextUnplayed(queue: seq<string>, played: set<string>, i: nat, j: nat)
    requires StopsAt(queue, played, i, j)
    ensures j == NextUnplayed(queue, played, i)
  {
  }

  /** The skip loop itself, as the imperative walk it is in the source. */
  method SkipPlayed(queue: seq<string>, played: set<string>, start: nat) returns (j: nat)
    ensures StopsAt(queue, played, start, j)
    ensures start <= |queue| ==> j <= |queue|
    ensures j == NextUnplayed(queue, played, start)
  {
    j := start;
    while j < |queue| && queue[j] in played
      invariant start <= j
      invariant start <= |queue| ==> j <= |queue|
      invariant start < j ==> j <= |queue|
      invariant forall k :: start <= k < j ==> queue[k] in played
      decreases |queue| - j
    {
      j := j + 1;
    }
    StopIsNextUnplayed(queue, played, start, j);
  }
}
